=== FILE: README.md ===
# Litentry client demo: helpers, network selection, credential filtering and shielding-key glue

A Dafny model of the self-contained logic of the Litentry client demo app,
a browser client that requests Verifiable Credentials from the Litentry
enclave. Everything here is pure and sequential:

- `Util` (`util.dfy`): the string and number helpers of `services/util.ts`:
  the EVM address shape check, Bitcoin address-type classification by prefix,
  domain masking (`domainShorten`), the elapsed-time and reward labels,
  space- and case-insensitive name comparison, and the `0x` normaliser
  `formatAddress`.
- `Network` (`network.dfy`): the `SUPPORTED_NETWORKS` table of
  `config/network.ts`, `validateNetwork`, and the `CURRENT_NETWORK_*` lookups.
  A `Network` is a subset type of `string` (a key of the table), so
  `ValidateNetwork` returns the input string itself, as the source does.
- `Credentials` (`credentials.dfy`): the comma-separated blacklist applied to
  the credential-definition catalogue (`getAllCredentialDefinitions`, which
  appears twice in the source, once in `services/useUserVerifiableCredentials.ts`
  and once, identical, in `services/util.ts`), and the record filters
  `filtersFunctions`.
- `ShieldingKeyUtils` (`shielding_key.dfy`): `generate`, `generateNonce12`,
  `encrypt`, `decrypt`, `encode` and `decode` of
  `services/shielding-key.utils.ts`, with the `ShieldingKey` and
  `ShieldingKeyData` records of `services/shielding-key.utils.types.ts` and
  the constants of `services/defaults/shielding-key.defaults.ts` (AES-GCM,
  256-bit key, usages encrypt and decrypt), and the export tag `spki` that
  `encode` passes to `jsonEncrypt` (services/shielding-key.utils.ts:80).

Supporting modules:

- `JsString` (`js_string.dfy`) gives the JavaScript string built-ins the
  helpers use, with their JavaScript semantics over a string of Unicode
  scalar values: `slice` with negative indices, `lastIndexOf` returning -1,
  `split` on one character (proved inverse to `join`), and `replaceAll` of
  one character.
- `Hex` (`hex.dfy`) gives the `@polkadot/util` hex codec `u8aToHex` and
  `hexToU8a`. Both round-trip directions are proved.
- `WebCrypto` (`web_crypto.dfy`) gives the `crypto.subtle` calls the key
  code makes: `generateKey`, `importKey('raw')`, `exportKey('raw')`,
  `encrypt` and `decrypt` for AES-GCM, and `getRandomValues`. They follow the
  argument checks of the W3C Web Cryptography API (unknown algorithm, name
  mismatch, missing usage, non-extractable key, AES key length of 128, 192
  or 256 bits, plaintext limit of 2^39 - 256 bytes, 16-byte tag). The
  AES-GCM transform itself is a pair of functions passed in as a parameter.
  The guarantees the model relies on are stated as predicates:
  - `AesGcmCorrect`: opening what was sealed gives the plaintext back, and
    one tag is added.
  - `AesGcmAuthentic`: a ciphertext opens only when it is the seal of the
    cleartext it opens to, under the same key and IV.
- `UtilCrypto` (`util_crypto.dfy`) gives `jsonEncrypt`/`jsonDecrypt` of
  `@polkadot/util-crypto` as a parameter, with these assumed predicates:
  - `JsonEnvelopeInverts`: decrypting with the right passphrase returns the
    data.
  - `JsonEnvelopeRejectsWrongPassphrase`: with a non-empty passphrase, any
    other passphrase is rejected.
- `ShieldingKeyUtils.JsonCodec` stands for `JSON.stringify` with
  `stringToU8a`, and `u8aToString` with `JSON.parse`. It assumes the
  `JsonRoundTrips` predicate: parsing what was serialised gives the same
  record back.
- `Wrappers` (`wrappers.dfy`): `Option` for optional fields and `Result`
  for what a call returns or throws.
- `Bytes` (`bytes.dfy`): the octet type of `Uint8Array`.

The `Result`s model what each call returns or throws. `encrypt` and `decode`
catch nothing, so their failures are the platform's own errors, passed on
unchanged: for `decode`, whatever `jsonDecrypt`, `JSON.parse`, `hexToU8a` or
`importKey` throws reaches the caller, and there is no typed decode error.
`decrypt` maps every failure to the single error `Failed to decrypt data`.
`encode` does not check for an empty passphrase, and neither does the model:
`Encode` fails only for a non-extractable key.

All randomness comes in through a parameter, the byte stream
`random: nat -> byte`. Each call of `Generate` or `GenerateNonce12` stands
for a separate draw and is given its own fresh stream; both read it from
index 0. The environment variables `NX_PARACHAIN_NETWORK` and
`NX_BLACKLISTED_CREDENTIALS` are `Option<string>` parameters, where `None`
means unset. `isValidSubstrateAddress` is a predicate parameter of
`FormatAddress`.

## Model

| member | source | states |
|---|---|---|
| `Util.IsValidEvmAddress` | services/util.ts:66-72 | the scan accepts exactly the inputs whose lower-cased form is 40 hex digits, optionally preceded by `0x` |
| `Util.EvmAddressLength` | services/util.ts:66-72 | every accepted address is 40 or 42 characters long |
| `Util.EvmAddressCaseInsensitive` | services/util.ts:66-72 | acceptance does not depend on letter case |
| `Util.TellBitcoinAddressType` | services/util.ts:77-91 | `1` gives P2pkh, `3` gives P2sh and `bc1q` gives P2wpkh, each in both directions; everything else is P2tr |
| `Util.BitcoinTypeReadsFourChars` | services/util.ts:77-91 | two addresses that share their first four characters get the same type |
| `Util.BitcoinTypeFallback` | services/util.ts:84-90 | `bc1p`, upper-case `BC1Q`, the empty string and unknown prefixes all give P2tr |
| `JsString.LastIndexOf` | services/util.ts:101 | -1 exactly when the character is absent; otherwise an index holding it with no later occurrence |
| `Util.DomainShorten` | services/util.ts:100-121 | with the last dot at index 1 or more, the result contains `*` and ends with the dot and everything after it |
| `Util.DomainShortenShortNames` | services/util.ts:104-109 | a dot at index 1 gives `*` plus the suffix; a dot at index 2 gives the first character, `*` and the suffix |
| `Util.DomainShortenMasksMiddle` | services/util.ts:110-120 | for a dot at index p of 3 or more and prefixLength of 1 or more, the result is the first L characters, `*`, the last L characters of the name and the suffix, where L = min(prefixLength, (p-1)/2); so 1 <= L and 2L < p, and at least one character is masked |
| `Util.DomainShortenExample` | services/util.ts:110-120 | `abcd.bnb` shortens to `a*d.bnb`, as the source comment says |
| `Util.DomainShortenWithoutDot` | services/util.ts:100-120 | without a dot, the negative slices repeat characters: `abcdef` gives `abcd*bcdef` |
| `Util.CalPassedTimeLabel` | services/util.ts:143-154 | four disjoint buckets bounded at 10, 60 and 600 seconds; in the minutes bucket the count is floor(s/60), between 1 and 10 |
| `Util.TimeLabelText` | services/util.ts:143-154 | the seconds and minutes texts end with ` seconds` and ` minutes ago`; everything in front is decimal digits without a leading zero (unless the count is 0), and those digits read back as the count |
| `Util.DecimalRoundTrip` | services/util.ts:147-150 | reading back the digits a count is printed with gives the count |
| `Util.PassedTimeLabelText` | services/util.ts:143-154 | up to 10 seconds the text is `just now`, beyond 600 it is `a while ago`; in between it names the seconds, or the whole minutes floor(s/60), as unpadded decimal digits in front of the unit that read back as that count |
| `Util.PassedTimeLabelMonotonic` | services/util.ts:143-154 | a later time never falls in an earlier bucket, and the minute count never decreases |
| `Util.CalRewardWithRank` | services/util.ts:163-173 | the reward is one of `22.4`, `10`, `5`, `-`; it is `22.4` exactly for rank 10 or better, `10` exactly for ranks 11 to 50, `5` exactly for ranks 51 to 130, and `-` exactly beyond rank 130 |
| `Util.RewardNonIncreasing` | services/util.ts:163-173 | a worse rank never earns a larger reward |
| `Util.IsSameName` | services/util.ts:175-180 | two names match exactly when, with their spaces removed, they have the same length and agree character by character up to letter case |
| `Util.IsSameNameEquivalence` | services/util.ts:175-180 | name comparison is reflexive, symmetric and transitive |
| `Util.IsSameNameIgnoresSpace` | services/util.ts:175-180 | inserting a space anywhere in a name never changes the verdict |
| `Util.IsSameNameIgnoresCase` | services/util.ts:175-180 | a name matches its lower-cased form |
| `Util.IsSameNameKeepsTabs` | services/util.ts:177-178 | only spaces are stripped: `a<tab>b` differs from `ab`, while `A b` matches `ab` |
| `Util.FormatAddress` | services/util.ts:156-161 | the result is the input or `0x` plus the input; `0x` inputs and Substrate addresses come back unchanged, and every other result starts with `0x` |
| `Util.FormatAddressIdempotent` | services/util.ts:156-161 | formatting twice is the same as formatting once |
| `Network.ValidateNetwork` | config/network.ts:55-78 | unset or empty gives `litentry-dev`; any other value is accepted exactly when it is a key of the table and is then returned unchanged; a rejection names the value and ends with the list of valid names |
| `Network.SupportedNetworkNames` | config/network.ts:1-68 | the seven names the validation chain tests are exactly the keys of `SUPPORTED_NETWORKS` |
| `Network.InvalidNetworkMessageShape` | config/network.ts:70-75 | the error message contains the rejected value and ends with the list of valid names |
| `Network.SupportedNetworkKeysMatchTable` | config/network.ts:1-51 | the key list quoted in the error is the table's key set, without repetitions |
| `Network.ErrorMessageListsEveryNetwork` | config/network.ts:70-75 | every accepted name appears in the error message's list |
| `Network.ValidateNetworkIdempotent` | config/network.ts:55-78 | validating an accepted result again gives the same result |
| `Network.Ss58Prefixes` | config/network.ts:1-51 | the SS58 prefix is 31 for `litentry` and 42 for every other network |
| `Network.CurrentNetworkConfig` | config/network.ts:80-93 | the table lookup fails only when validation fails; its entry is a table entry with prefix 31 or 42, and with the variable unset it is the development network at `wss://tee-dev.litentry.io` |
| `Network.CurrentNetworkConfigOwnEntry` | config/network.ts:80-93 | for a supported name the configuration is that name's own table entry, so the prefix for `litentry` is 31 |
| `JsString.Split` | services/useUserVerifiableCredentials.ts:77 | `split(',')` gives at least one piece; no piece contains a comma, and joining the pieces with commas gives the input back |
| `Credentials.RemoveBlacklisted` | services/useUserVerifiableCredentials.ts:78-80 | the result is an order-preserving subsequence of the input, no longer than it; no kept id is blacklisted, every kept entry is an input entry, and every input entry whose id is not blacklisted is kept |
| `Credentials.RemoveBlacklistedLength` | services/useUserVerifiableCredentials.ts:78-80 | the result has exactly as many entries as the input has non-blacklisted entries |
| `Credentials.RemoveBlacklistedIdempotent` | services/useUserVerifiableCredentials.ts:78-80 | filtering twice with the same blacklist is the same as filtering once |
| `Credentials.GetAllCredentialDefinitions` | services/useUserVerifiableCredentials.ts:68-85 | an unset or empty variable returns the whole catalogue in order; otherwise no returned definition has the id of any comma-separated entry, and every catalogue entry whose id differs from all of them is returned, as an order-preserving subsequence whose length is the number of catalogue entries that pass, so no entry is dropped or repeated (the copy at services/util.ts:34-51 is identical) |
| `Credentials.BlacklistIsNotTrimmed` | services/useUserVerifiableCredentials.ts:77-79 | entries are matched exactly: ` A4` does not exclude id `A4` |
| `Credentials.GetAllCredentialDefinitionsIdempotent` | services/useUserVerifiableCredentials.ts:68-85 | applying the configured blacklist to its own result changes nothing |
| `Credentials.ApplyFilter` | services/useUserVerifiableCredentials.ts:28-33 | a record passes a filter exactly when the filter is `all` or the record is claimed |
| `Credentials.FilterSemantics` | services/useUserVerifiableCredentials.ts:30-33 | `all` accepts every record; `claimed` accepts exactly the claimed ones and never more than `all` |
| `Hex.U8aToHex` | services/shielding-key.utils.ts:75 | the hex text is `0x` followed by two lower-case digits per byte |
| `Hex.HexToU8a` | services/shielding-key.utils.ts:89 | decoding succeeds exactly when the text after an optional `0x` has an even number of hex digits of either case; byte i is the value of digits 2i and 2i+1; a failure names the input |
| `Hex.HexRoundTrip` | services/shielding-key.utils.ts:75-89 | `hexToU8a(u8aToHex(b))` gives back `b` |
| `Hex.HexCanonical` | services/shielding-key.utils.ts:75-89 | a `0x` lower-case hex string that decodes is reproduced exactly by encoding its bytes |
| `ShieldingKeyUtils.Generate` | services/shielding-key.utils.ts:11-18 | the new key is an extractable 256-bit AES-GCM key with usages encrypt and decrypt, 32 bytes of material, and no `createdByTx` or `createdAtHeight` |
| `ShieldingKeyUtils.GenerateNonce12` | services/shielding-key.utils.ts:44-51 | the nonce is exactly 12 bytes long, the 96-bit IV length NIST SP 800-38D recommends |
| `ShieldingKeyUtils.Encrypt` | services/shielding-key.utils.ts:53-67 | fails exactly for a non-AES-GCM key, a key without the encrypt usage, or an over-long cleartext, with the exception `crypto.subtle.encrypt` raises, unchanged: `InvalidAccessError` for a non-AES-GCM key or a missing encrypt usage, `OperationError` for an over-long cleartext; otherwise the AES-GCM seal of the cleartext under the key with the nonce as IV |
| `ShieldingKeyUtils.Decrypt` | services/shielding-key.utils.ts:20-42 | every failure is the one error `Failed to decrypt data`; it succeeds exactly when the key permits decryption and the tag checks, and then returns the opened cleartext and nothing else |
| `ShieldingKeyUtils.EncryptDecryptRoundTrip` | services/shielding-key.utils.ts:20-67 | assuming the AES-GCM contract, decrypting with the same key and nonce recovers the cleartext, and the ciphertext is 16 bytes longer |
| `ShieldingKeyUtils.DecryptOnlyGenuine` | services/shielding-key.utils.ts:20-42 | assuming AES-GCM integrity, any ciphertext that decrypts is exactly the encryption of its cleartext under that key and nonce |
| `ShieldingKeyUtils.PackKeyData` | services/shielding-key.utils.ts:73-78 | the packed key is `0x` hex that decodes to the raw key bytes; `createdByTx` and `createdAtHeight` are copied unchanged |
| `ShieldingKeyUtils.Encode` | services/shielding-key.utils.ts:69-81 | the export fails only for a non-extractable key, with the platform's `InvalidAccessError`; an empty passphrase is accepted |
| `ShieldingKeyUtils.EncodeSealsKeyData` | services/shielding-key.utils.ts:69-81 | the export carries the `spki` tag and seals the serialised record of the key's hex and its provenance |
| `ShieldingKeyUtils.Decode` | services/shielding-key.utils.ts:83-104 | it succeeds exactly when the envelope opens, the text parses, the stored key is hex and decodes to 16, 24 or 32 bytes; a failing step's error is returned as that step raised it (the envelope's and the parser's unchanged, a hex error as a plain `Error`, an import error as the platform's `DOMException`); on success the provenance is exactly what was stored, the key material is what the stored hex decodes to, and the key is a valid extractable AES-GCM key |
| `ShieldingKeyUtils.EncodeDecodeRoundTrip` | services/shielding-key.utils.ts:69-104 | assuming the envelope and JSON round-trip, decoding an export with the same passphrase gives back the same key, material and provenance, with absent fields still absent |
| `ShieldingKeyUtils.GenerateEncodeDecode` | services/shielding-key.utils.ts:11-104 | a freshly generated key survives export and import unchanged |
| `ShieldingKeyUtils.DecodeWrongPassphrase` | services/shielding-key.utils.ts:83-88 | with a non-empty passphrase, decoding under another passphrase fails with the envelope's own error |

## Left out

- React pages, layout and the React Query provider: user-interface plumbing.
- `services/useSubstrateAPI.ts` and `services/useApi.ts`: WebSocket and RPC connection setup and asynchronous chain queries.
- `isValidSubstrateAddress`, `getEncodedAddress` and `isValidBitcoinAddress`: thin wrappers over SS58 and Bitcoin address decoding libraries that are not part of this model. `FormatAddress` takes the Substrate check as a predicate parameter.
- `substrateSign` and `getGenericSigner`: asynchronous signing through a wallet extension.
- `GetArrData`: it depends on floating-point `toFixed`.
- `dataURLtoBlob`, `blobToFile` and `scrollToBottom`: browser `atob`, Blob, File and DOM APIs.
- Reading `process.env`, and evaluating `CURRENT_NETWORK` when the module loads. The variable's value is a parameter, and a load-time throw is the `Failure` of `ValidateNetwork`/`CurrentNetworkConfig`.
- The `catch` branch of `getAllCredentialDefinitions`: splitting a string cannot throw, so that branch is unreachable. The console output is not modelled either.
- `console.error` in `decrypt`, and every other console output.
- The internals of AES-GCM, of key generation, of the random source, and of the `jsonEncrypt`/`jsonDecrypt` envelope (its KDF and cipher). These are foreign code. They are parameters, and the properties the model needs from them are stated as assumption predicates.
- Nonce uniqueness: it is a property of the random source and cannot be proved. `GenerateNonce12` only fixes the length.
- The JSON text format of `ShieldingKeyData`: `JSON.stringify`/`JSON.parse` are the `JsonCodec` parameter. Text that does not parse to a `ShieldingKeyData` record is one parse failure; which later step would throw on such a record, and with what error, is not modelled.
- The source of `hexToU8a` is not part of this model. `HexToU8a` assumes a strict decoder: an optional `0x`, an even number of digits, either letter case, and an error otherwise.
- Web Cryptography algorithm-name normalisation (case-insensitive names): the source always passes the exact name `AES-GCM`.
- The platform's IV-length checks: `Encrypt` and `Decrypt` accept a nonce of any length, as the source passes the caller's nonce on unchecked; only `GenerateNonce12` fixes 12 bytes.
- Tamper detection: `AesGcmAuthentic` only says that what opens is the seal of its own cleartext under the same key and IV. It does not rule out a different IV or ciphertext that opens too, so `DecryptOnlyGenuine` does not promise that a modified nonce or ciphertext is rejected.
- The parsed credential and the claim payload of `UserVerifiableCredentialRecord`: SDK types, left opaque.
- UTF-16 code units: a Dafny string is a sequence of Unicode scalar values, while a JavaScript string is a sequence of UTF-16 code units. Outside the Basic Multilingual Plane the two count positions differently, so the indices of `lastIndexOf` and `slice` differ there and `domainShorten` may split a surrogate pair where the model keeps whole characters.
- JsString.LastIndexOf: positions count Unicode scalar values, not UTF-16 code units (see above).
- Util.DomainShorten: for names with characters outside the Basic Multilingual Plane the masked positions differ from the source's (see above).
- Non-ASCII case mapping: `toLowerCase` maps only `A`-`Z`. This matters for `isSameName` on non-ASCII names. The EVM check only accepts ASCII anyway.
- Util.CalPassedTimeLabel: takes whole seconds only (a JavaScript `number` may be fractional); with integer seconds the bounds are exact.
- Util.CalRewardWithRank: takes integer ranks only, so `NaN` and fractional ranks are not modelled.
- Util.DomainShorten: `prefixLength` is an integer, and non-integer lengths are not modelled.
- The types `0x${string}` of `createdByTx` and of `ShieldingKeyData.key` are not enforced as subset types: `createdByTx` is any optional string, while `ShieldingKeyData.key` is proved `0x`-prefixed when packed.
- Promises and asynchronous scheduling: each operation is a function returning a `Result`.

=== FILE: bytes.dfy ===
/** Octets, the element type of `Uint8Array`. */
module Bytes {
  newtype byte = x: int | 0 <= x < 256
}

=== FILE: credentials.dfy ===
/** Credential-definition blacklisting and the record filters of
    `services/useUserVerifiableCredentials.ts` (the blacklist code has an
    identical copy in `services/util.ts`). */
module Credentials {
  import opened Wrappers
  import opened JsString

  /** A catalogue entry; everything except its `id` is opaque here. */
  datatype CredentialDefinition<D> = CredentialDefinition(id: string, details: D)

  /** `xs` can be obtained from `ys` by deleting elements. */
  predicate IsSubsequence<T(==)>(xs: seq<T>, ys: seq<T>)
    decreases |ys|
  {
    if |xs| == 0 then true
    else if |ys| == 0 then false
    else if xs[0] == ys[0] then IsSubsequence(xs[1..], ys[1..])
    else IsSubsequence(xs, ys[1..])
  }

  /** `definitions.filter((d) => !blacklistedIds.includes(d.id))` */
  function RemoveBlacklisted<D(==)>(definitions: seq<CredentialDefinition<D>>, blacklistedIds: seq<string>)
    : (r: seq<CredentialDefinition<D>>)
    ensures |r| <= |definitions|
    ensures forall i :: 0 <= i < |r| ==> r[i].id !in blacklistedIds
    ensures forall i :: 0 <= i < |r| ==> r[i] in definitions
    ensures forall i :: 0 <= i < |definitions| && definitions[i].id !in blacklistedIds ==> definitions[i] in r
    ensures IsSubsequence(r, definitions)
    decreases |definitions|
  {
    if |definitions| == 0 then []
    else
      var rest := RemoveBlacklisted(definitions[1..], blacklistedIds);
      if definitions[0].id in blacklistedIds then
        SubsequenceDropHead(rest, definitions);
        rest
      else
        var r := [definitions[0]] + rest;
        assert r[1..] == rest;
        r
  }

  lemma SubsequenceDropHead<T>(xs: seq<T>, ys: seq<T>)
    requires |ys| > 0 && IsSubsequence(xs, ys[1..])
    ensures IsSubsequence(xs, ys)
    decreases |xs| + |ys|
  {
    if |xs| > 0 && xs[0] == ys[0] {
      SubsequenceDropHeadBoth(xs, ys[1..]);
    }
  }

  lemma SubsequenceDropHeadBoth<T>(xs: seq<T>, ys: seq<T>)
    requires |xs| > 0 && IsSubsequence(xs, ys)
    ensures IsSubsequence(xs[1..], ys)
    decreases |xs| + |ys|
  {
    if xs[0] != ys[0] {
      SubsequenceDropHeadBoth(xs, ys[1..]);
    }
    SubsequenceDropHead(xs[1..], ys);
  }

  /** Filtering a second time with the same blacklist removes nothing more. */
  lemma {:induction false} RemoveBlacklistedIdempotent<D>(definitions: seq<CredentialDefinition<D>>, blacklistedIds: seq<string>)
    ensures RemoveBlacklisted(RemoveBlacklisted(definitions, blacklistedIds), blacklistedIds)
         == RemoveBlacklisted(definitions, blacklistedIds)
    decreases |definitions|
  {
    if |definitions| > 0 {
      var rest := RemoveBlacklisted(definitions[1..], blacklistedIds);
      RemoveBlacklistedIdempotent(definitions[1..], blacklistedIds);
      if definitions[0].id !in blacklistedIds {
        var r := [definitions[0]] + rest;
        assert r[1..] == rest;
      }
    }
  }

  /** The definitions whose id is not blacklisted, in catalogue order: the
      filter keeps exactly as many entries as pass the test. */
  function CountKept<D>(definitions: seq<CredentialDefinition<D>>, blacklistedIds: seq<string>): nat
    decreases |definitions|
  {
    if |definitions| == 0 then 0
    else (if definitions[0].id in blacklistedIds then 0 else 1) + CountKept(definitions[1..], blacklistedIds)
  }

  lemma {:induction false} RemoveBlacklistedLength<D>(definitions: seq<CredentialDefinition<D>>, blacklistedIds: seq<string>)
    ensures |RemoveBlacklisted(definitions, blacklistedIds)| == CountKept(definitions, blacklistedIds)
    decreases |definitions|
  {
    if |definitions| > 0 {
      RemoveBlacklistedLength(definitions[1..], blacklistedIds);
    }
  }

  /** `getAllCredentialDefinitions()`, with the catalogue and the value of
      `NX_BLACKLISTED_CREDENTIALS` passed in. An unset or empty variable keeps
      the whole catalogue; otherwise the comma-separated ids are removed. */
  function GetAllCredentialDefinitions<D(==)>(catalogue: seq<CredentialDefinition<D>>, blacklist: Option<string>)
    : (r: seq<CredentialDefinition<D>>)
    ensures blacklist == None || blacklist == Some("") ==> r == catalogue
    ensures IsSubsequence(r, catalogue) && |r| <= |catalogue|
    ensures forall i :: 0 <= i < |r| ==> r[i] in catalogue
    ensures blacklist.Some? && blacklist.value != "" ==>
      && (forall i :: 0 <= i < |r| ==> r[i].id !in Split(blacklist.value, ','))
      && (forall i :: 0 <= i < |catalogue| && catalogue[i].id !in Split(blacklist.value, ',') ==> catalogue[i] in r)
      && |r| == CountKept(catalogue, Split(blacklist.value, ','))
  {
    if blacklist.None? || blacklist.value == "" then
      SubsequenceReflexive(catalogue);
      catalogue
    else
      RemoveBlacklistedLength(catalogue, Split(blacklist.value, ','));
      RemoveBlacklisted(catalogue, Split(blacklist.value, ','))
  }

  lemma {:induction false} SubsequenceReflexive<T>(xs: seq<T>)
    ensures IsSubsequence(xs, xs)
    decreases |xs|
  {
    if |xs| > 0 {
      SubsequenceReflexive(xs[1..]);
    }
  }

  /** Entries are compared exactly: a leading space keeps the definition. */
  lemma BlacklistIsNotTrimmed<D>(details: D)
    ensures var a4 := CredentialDefinition("A4", details);
            GetAllCredentialDefinitions([a4], Some(" A4")) == [a4]
  {
    var a4 := CredentialDefinition("A4", details);
    var ids := Split(" A4", ',');
    assert ',' !in " A4";
    assert ids == [" A4"];
    assert a4.id !in ids;
  }

  /** Applying the configured filter to its own output changes nothing. */
  lemma GetAllCredentialDefinitionsIdempotent<D>(catalogue: seq<CredentialDefinition<D>>, blacklist: Option<string>)
    ensures GetAllCredentialDefinitions(GetAllCredentialDefinitions(catalogue, blacklist), blacklist)
         == GetAllCredentialDefinitions(catalogue, blacklist)
  {
    if blacklist.Some? && blacklist.value != "" {
      RemoveBlacklistedIdempotent(catalogue, Split(blacklist.value, ','));
    }
  }

  // ---------------------------------------------------------------------
  // filtersFunctions
  // ---------------------------------------------------------------------

  /** `UserVerifiableCredentialRecord`; the parsed credential and the claim
      payload are SDK types and stay opaque inside `details`. */
  datatype UserVerifiableCredentialRecord<D> = UserVerifiableCredentialRecord(
    rawCredentialText: string,
    definition: CredentialDefinition<D>,
    claimed: bool)

  /** `keyof typeof filtersFunctions` */
  datatype FilterName = All | Claimed

  /** `defaultOptions.filter` */
  const DefaultFilter: FilterName := All

  /** `filtersFunctions[name](record)`: a claimed record passes every
      filter, an unclaimed one only `all`. */
  function ApplyFilter<D>(name: FilterName, record: UserVerifiableCredentialRecord<D>): (admitted: bool)
    ensures admitted <==> name == All || record.claimed
  {
    match name
    case All => true
    case Claimed => record.claimed
  }

  /** `all` admits every record; `claimed` admits exactly the claimed ones,
      so it is never more permissive than `all`. */
  lemma FilterSemantics<D>(record: UserVerifiableCredentialRecord<D>)
    ensures ApplyFilter(All, record)
    ensures ApplyFilter(Claimed, record) <==> record.claimed
    ensures ApplyFilter(Claimed, record) ==> ApplyFilter(DefaultFilter, record)
  {
  }
}

=== FILE: hex.dfy ===
/** The `@polkadot/util` hex codec: `u8aToHex` and `hexToU8a`. */
module Hex {
  import opened Wrappers
  import opened Bytes

  /** The lower-case digit for a value below 16. */
  function Digit(n: int): (c: char)
    requires 0 <= n < 16
    ensures IsLowerDigit(c)
  {
    if n < 10 then ('0' as int + n) as char else ('a' as int + n - 10) as char
  }

  predicate IsLowerDigit(c: char) {
    '0' <= c <= '9' || 'a' <= c <= 'f'
  }

  predicate IsLowerHex(t: string) {
    forall i :: 0 <= i < |t| ==> IsLowerDigit(t[i])
  }

  function HexPair(b: byte): string {
    [Digit((b as int) / 16), Digit((b as int) % 16)]
  }

  /** Two lower-case digits per byte, most significant first. */
  function EncodeBody(bytes: seq<byte>): (s: string)
    ensures |s| == 2 * |bytes|
    ensures IsLowerHex(s)
    decreases |bytes|
  {
    if |bytes| == 0 then "" else HexPair(bytes[0]) + EncodeBody(bytes[1..])
  }

  /** `u8aToHex(bytes)`: `0x` followed by two digits per byte (just `0x`
      for no bytes). */
  function U8aToHex(bytes: seq<byte>): (s: string)
    ensures |s| == 2 + 2 * |bytes|
    ensures s[..2] == "0x" && IsLowerHex(s[2..])
  {
    "0x" + EncodeBody(bytes)
  }

  /** The value of one hex digit, in either letter case. */
  function DigitValue(c: char): (r: Option<int>)
    ensures r.Some? ==> 0 <= r.value < 16
  {
    if '0' <= c <= '9' then Some(c as int - '0' as int)
    else if 'a' <= c <= 'f' then Some(c as int - 'a' as int + 10)
    else if 'A' <= c <= 'F' then Some(c as int - 'A' as int + 10)
    else None
  }

  lemma DigitRoundTrip(n: int)
    requires 0 <= n < 16
    ensures DigitValue(Digit(n)) == Some(n)
  {
  }

  lemma DigitCanonical(c: char)
    requires IsLowerDigit(c)
    ensures DigitValue(c).Some? && Digit(DigitValue(c).value) == c
  {
  }

  /** Two digits, most significant first, as one byte. */
  function DecodePair(c0: char, c1: char): Option<byte> {
    match (DigitValue(c0), DigitValue(c1))
    case (Some(hi), Some(lo)) => Some((hi * 16 + lo) as byte)
    case _ => None
  }

  lemma PairRoundTrip(b: byte)
    ensures DecodePair(HexPair(b)[0], HexPair(b)[1]) == Some(b)
  {
    var hi, lo := (b as int) / 16, (b as int) % 16;
    DigitRoundTrip(hi);
    DigitRoundTrip(lo);
    assert hi * 16 + lo == b as int;
    assert HexPair(b) == [Digit(hi), Digit(lo)];
  }

  lemma PairCanonical(c0: char, c1: char)
    requires IsLowerDigit(c0) && IsLowerDigit(c1)
    ensures DecodePair(c0, c1).Some? && HexPair(DecodePair(c0, c1).value) == [c0, c1]
  {
    DigitCanonical(c0);
    DigitCanonical(c1);
    var hi, lo := DigitValue(c0).value, DigitValue(c1).value;
    var b := DecodePair(c0, c1).value;
    assert b as int == hi * 16 + lo;
    SplitByte(hi, lo);
    assert HexPair(b) == [Digit(hi), Digit(lo)];
  }

  lemma SplitByte(hi: int, lo: int)
    requires 0 <= hi < 16 && 0 <= lo < 16
    ensures (hi * 16 + lo) / 16 == hi && (hi * 16 + lo) % 16 == lo
  {
  }

  /** A hex digit of either letter case. */
  predicate IsHexDigit(c: char) {
    DigitValue(c).Some?
  }

  predicate IsHex(t: string) {
    forall i :: 0 <= i < |t| ==> IsHexDigit(t[i])
  }

  /** Pairs of digits back to bytes; `None` on an odd length or a non-digit. */
  function DecodeBody(t: string): (r: Option<seq<byte>>)
    ensures r.Some? <==> |t| % 2 == 0 && IsHex(t)
    ensures r.Some? ==> |t| == 2 * |r.value|
    decreases |t|
  {
    if |t| == 0 then Some([])
    else if |t| == 1 then None
    else
      var rest := DecodeBody(t[2..]);
      assert IsHex(t) <==> IsHexDigit(t[0]) && IsHexDigit(t[1]) && IsHex(t[2..]) by {
        assert forall i :: 0 <= i < |t| - 2 ==> t[2..][i] == t[i + 2];
      }
      match (DecodePair(t[0], t[1]), rest)
      case (Some(b), Some(bs)) => Some([b] + bs)
      case _ => None
  }

  /** Byte `i` of a decoded body is the value of digits `2i` and `2i + 1`. */
  lemma {:induction false} DecodeBodyValues(t: string)
    requires DecodeBody(t).Some?
    ensures forall i :: 0 <= i < |DecodeBody(t).value| ==>
      DecodeBody(t).value[i] as int == DigitValue(t[2 * i]).value * 16 + DigitValue(t[2 * i + 1]).value
    decreases |t|
  {
    if |t| > 0 {
      var bs := DecodeBody(t).value;
      var tail := t[2..];
      DecodeBodyValues(tail);
      assert bs[1..] == DecodeBody(tail).value;
      forall i | 0 <= i < |bs|
        ensures bs[i] as int == DigitValue(t[2 * i]).value * 16 + DigitValue(t[2 * i + 1]).value
      {
        if i > 0 {
          assert bs[i] == bs[1..][i - 1];
          assert t[2 * i] == tail[2 * (i - 1)] && t[2 * i + 1] == tail[2 * (i - 1) + 1];
        }
      }
    }
  }

  /** What `hexToU8a` decodes: `s` without a leading `0x`. */
  function HexBody(s: string): (body: string)
    ensures |s| >= 2 && s[..2] == "0x" ==> s == "0x" + body
    ensures !(|s| >= 2 && s[..2] == "0x") ==> body == s
  {
    if |s| >= 2 && s[..2] == "0x" then s[2..] else s
  }

  /** `hexToU8a(s)`: an optional `0x` prefix, then an even number of hex
      digits; anything else is an error naming the input. */
  function HexToU8a(s: string): (r: Result<seq<byte>, string>)
    ensures r.Success? <==> |HexBody(s)| % 2 == 0 && IsHex(HexBody(s))
    ensures r.Success? ==> |HexBody(s)| == 2 * |r.value|
    ensures r.Success? ==> forall i :: 0 <= i < |r.value| ==>
      r.value[i] as int == DigitValue(HexBody(s)[2 * i]).value * 16 + DigitValue(HexBody(s)[2 * i + 1]).value
    ensures r.Failure? ==> r.error == "Expected hex value to convert, found '" + s + "'"
  {
    match DecodeBody(HexBody(s))
    case Some(bytes) =>
      DecodeBodyValues(HexBody(s));
      Success(bytes)
    case None => Failure("Expected hex value to convert, found '" + s + "'")
  }

  lemma {:induction false} DecodeEncodeBody(bytes: seq<byte>)
    ensures DecodeBody(EncodeBody(bytes)) == Some(bytes)
    decreases |bytes|
  {
    if |bytes| > 0 {
      var t := EncodeBody(bytes);
      var pair := HexPair(bytes[0]);
      assert t == pair + EncodeBody(bytes[1..]);
      assert t[0] == pair[0] && t[1] == pair[1] && t[2..] == EncodeBody(bytes[1..]);
      PairRoundTrip(bytes[0]);
      DecodeEncodeBody(bytes[1..]);
      assert [bytes[0]] + bytes[1..] == bytes;
    }
  }

  /** Decoding what `u8aToHex` produced gives back the bytes. */
  lemma HexRoundTrip(bytes: seq<byte>)
    ensures HexToU8a(U8aToHex(bytes)) == Success(bytes)
  {
    var s := U8aToHex(bytes);
    assert s[2..] == EncodeBody(bytes);
    DecodeEncodeBody(bytes);
  }

  lemma {:induction false} EncodeDecodeBody(t: string)
    requires IsLowerHex(t) && DecodeBody(t).Some?
    ensures EncodeBody(DecodeBody(t).value) == t
    decreases |t|
  {
    if |t| > 0 {
      var bytes := DecodeBody(t).value;
      PairCanonical(t[0], t[1]);
      assert bytes[0] == DecodePair(t[0], t[1]).value;
      assert IsLowerHex(t[2..]) by {
        forall i | 0 <= i < |t[2..]| ensures IsLowerDigit(t[2..][i]) {
          assert t[2..][i] == t[i + 2];
        }
      }
      EncodeDecodeBody(t[2..]);
      assert bytes[1..] == DecodeBody(t[2..]).value;
      assert t == [t[0], t[1]] + t[2..];
    }
  }

  /** Conversely, a `0x`-prefixed lower-case hex string that decodes is
      reproduced exactly by encoding its bytes again. */
  lemma HexCanonical(s: string)
    requires |s| >= 2 && s[..2] == "0x" && IsLowerHex(s[2..])
    requires HexToU8a(s).Success?
    ensures U8aToHex(HexToU8a(s).value) == s
  {
    EncodeDecodeBody(s[2..]);
    assert s == s[..2] + s[2..];
  }
}

=== FILE: js_string.dfy ===
/** The JavaScript string built-ins the helpers rely on, over `seq<char>`. */
module JsString {

  /** `s.startsWith(prefix)` */
  predicate StartsWith(s: string, prefix: string) {
    |prefix| <= |s| && s[..|prefix|] == prefix
  }

  /** `s.endsWith(suffix)` */
  predicate EndsWith(s: string, suffix: string) {
    |suffix| <= |s| && s[|s| - |suffix|..] == suffix
  }

  /** `t` occurs in `s` starting at index `i`. */
  predicate InfixAt(t: string, s: string, i: int) {
    0 <= i <= |s| - |t| && s[i..i + |t|] == t
  }

  /** `s.includes(t)` */
  predicate Includes(s: string, t: string) {
    exists i | 0 <= i <= |s| :: InfixAt(t, s, i)
  }

  /** In a three-part concatenation the first part starts it, the middle
      is included in it, and the last part ends it. */
  lemma ConcatParts(a: string, b: string, c: string)
    ensures StartsWith(a + b + c, a)
    ensures Includes(a + b + c, b)
    ensures EndsWith(a + b + c, c)
  {
    assert (a + b + c)[..|a|] == a;
    assert (a + b + c)[|a|..|a| + |b|] == b;
    assert InfixAt(b, a + b + c, |a|);
    assert (a + b + c)[|a + b|..] == c;
  }

  /** `s.lastIndexOf(c)` for a one-character needle: -1 when absent. */
  function LastIndexOf(s: string, c: char): (r: int)
    ensures -1 <= r < |s|
    ensures r == -1 <==> c !in s
    ensures r >= 0 ==> s[r] == c && forall j :: r < j < |s| ==> s[j] != c
  {
    if |s| == 0 then -1
    else if s[|s| - 1] == c then |s| - 1
    else
      var r := LastIndexOf(s[..|s| - 1], c);
      assert forall j :: 0 <= j < |s| - 1 ==> s[..|s| - 1][j] == s[j];
      r
  }

  /** How `slice` resolves an index: a negative one counts from the end,
      and both kinds are clamped to `[0, len]`. */
  function RelativeIndex(i: int, len: nat): (r: nat)
    ensures r <= len
    ensures 0 <= i <= len ==> r == i
    ensures -(len as int) <= i < 0 ==> r == len + i
  {
    if i < 0 then (if len + i < 0 then 0 else len + i)
    else if i > len then len
    else i
  }

  /** `s.slice(start, end)` */
  function Slice(s: string, start: int, end: int): (r: string)
    ensures |r| <= |s|
    ensures 0 <= start <= end <= |s| ==> r == s[start..end]
  {
    var from := RelativeIndex(start, |s|);
    var to := RelativeIndex(end, |s|);
    if from < to then s[from..to] else ""
  }

  /** `s.slice(start)` */
  function SliceFrom(s: string, start: int): (r: string)
    ensures 0 <= start <= |s| ==> r == s[start..]
    ensures -|s| <= start < 0 ==> r == s[|s| + start..]
  {
    Slice(s, start, |s|)
  }

  /** `toLowerCase` on one character; only the ASCII letters are mapped. */
  function LowerChar(c: char): char {
    if 'A' <= c <= 'Z' then (c as int + 32) as char else c
  }

  /** `s.toLowerCase()` */
  function ToLower(s: string): (r: string)
    ensures |r| == |s|
    ensures forall i :: 0 <= i < |s| ==> r[i] == LowerChar(s[i])
  {
    seq(|s|, i requires 0 <= i < |s| => LowerChar(s[i]))
  }

  lemma ToLowerIdempotent(s: string)
    ensures ToLower(ToLower(s)) == ToLower(s)
  {
  }

  /** `s.replaceAll(c, '')` for a one-character pattern. */
  function RemoveAll(s: string, c: char): (r: string)
    ensures c !in r
    ensures |r| <= |s|
    ensures forall x :: x in r ==> x in s
  {
    if |s| == 0 then ""
    else (if s[0] == c then "" else [s[0]]) + RemoveAll(s[1..], c)
  }

  /** Removal works piecewise, so it commutes with concatenation. */
  lemma {:induction false} RemoveAllConcat(a: string, b: string, c: char)
    ensures RemoveAll(a + b, c) == RemoveAll(a, c) + RemoveAll(b, c)
    decreases |a|
  {
    if |a| == 0 {
      assert a + b == b;
    } else {
      assert (a + b)[0] == a[0];
      assert (a + b)[1..] == a[1..] + b;
      RemoveAllConcat(a[1..], b, c);
    }
  }

  /** `parts.join(sep)` */
  function Join(parts: seq<string>, sep: string): string
    decreases |parts|
  {
    if |parts| == 0 then ""
    else if |parts| == 1 then parts[0]
    else parts[0] + sep + Join(parts[1..], sep)
  }

  /** Every joined part can be found in the joined text. */
  lemma {:induction false} JoinIncludesParts(parts: seq<string>, sep: string, k: int)
    requires 0 <= k < |parts|
    ensures Includes(Join(parts, sep), parts[k])
    decreases |parts|
  {
    var j := Join(parts, sep);
    if |parts| == 1 {
      assert InfixAt(parts[k], j, 0);
    } else if k == 0 {
      assert j == parts[0] + (sep + Join(parts[1..], sep));
      assert InfixAt(parts[0], j, 0);
    } else {
      var rest := Join(parts[1..], sep);
      JoinIncludesParts(parts[1..], sep, k - 1);
      assert parts[1..][k - 1] == parts[k];
      var i :| 0 <= i <= |rest| && InfixAt(parts[k], rest, i);
      var head := parts[0] + sep;
      assert j == head + rest;
      InfixAtShift(parts[k], rest, head, i);
    }
  }

  /** An occurrence survives putting text in front, shifted by its length. */
  lemma InfixAtShift(t: string, s: string, head: string, i: int)
    requires InfixAt(t, s, i)
    ensures InfixAt(t, head + s, |head| + i)
  {
    assert (head + s)[|head| + i..|head| + i + |t|] == s[i..i + |t|];
  }

  /** `s.split(sep)` for a one-character separator: never empty, the pieces
      hold no separator, and joining them back gives `s`. */
  function Split(s: string, sep: char): (r: seq<string>)
    ensures |r| >= 1
    ensures forall i :: 0 <= i < |r| ==> sep !in r[i]
    ensures Join(r, [sep]) == s
    decreases |s|
  {
    if |s| == 0 then [""]
    else
      var rest := Split(s[1..], sep);
      if s[0] == sep then
        var r := [""] + rest;
        assert r[1..] == rest;
        assert Join(r, [sep]) == "" + [sep] + Join(rest, [sep]);
        assert s == [sep] + s[1..];
        r
      else
        var r := [[s[0]] + rest[0]] + rest[1..];
        if |rest| == 1 then
          assert s == [s[0]] + s[1..];
          r
        else
          assert r[1..] == rest[1..];
          assert Join(rest, [sep]) == rest[0] + [sep] + Join(rest[1..], [sep]);
          assert s == [s[0]] + s[1..];
          r
  }
}

=== FILE: network.dfy ===
/** `config/network.ts`: the table of supported parachain networks and the
    validation of the configured network name. */
module Network {
  import opened Wrappers
  import opened JsString

  datatype NetworkConfig = NetworkConfig(name: string, provider: string, ss58prefix: int, description: string)

  /** `SUPPORTED_NETWORKS`, keyed by network name. */
  const SupportedNetworks: map<string, NetworkConfig> := map[
    "litentry-local" := NetworkConfig(
      "Litentry Local Network",
      "ws://localhost:9944",
      42,
      "Currently you are running on Litentry local development network, including relaychains and parachain run by Litentry"),
    "litentry-dev" := NetworkConfig(
      "Litentry Development Network",
      "wss://tee-dev.litentry.io",
      42,
      "Currently you are running on Litentry development network, including relaychains and parachain run by Litentry"),
    "litentry-internal" := NetworkConfig(
      "Litentry Development Network",
      "wss://tee-internal.litentry.io",
      42,
      "Currently you are running on Litentry internal request-vc-in-batch network, including relaychains and parachain run by Litentry"),
    "litentry-staging" := NetworkConfig(
      "Litentry Staging Network",
      "wss://tee-staging.litentry.io",
      42,
      "Currently you are running on Litentry staging network, including relaychains and parachain run by Litentry"),
    "litentry-rococo" := NetworkConfig(
      "Litentry Rococo Network",
      "wss://rpc.rococo-parachain-sg.litentry.io",
      42,
      "Currently you are running on Litentry Rococo network, including relaychains and parachain run by Litentry"),
    "litentry-prod" := NetworkConfig(
      "Litentry Pre Production Network",
      "wss://tee-prod.litentry.io",
      42,
      "Currently you are running on Litentry Rococo network, including relaychains and parachain run by Litentry"),
    "litentry" := NetworkConfig(
      "Litentry Network",
      "wss://rpc.litentry-parachain.litentry.io",
      31,
      "Currently you are running on Litentry main network, including relaychains and parachain run by Litentry")
  ]

  /** `Object.keys(SUPPORTED_NETWORKS)`, in declaration order. */
  const SupportedNetworkKeys: seq<string> := [
    "litentry-local", "litentry-dev", "litentry-internal", "litentry-staging",
    "litentry-rococo", "litentry-prod", "litentry"
  ]

  /** `Network = keyof typeof SUPPORTED_NETWORKS` */
  type Network = s: string | s in SupportedNetworks witness "litentry-dev"

  const DefaultNetwork: Network := "litentry-dev"

  /** The list of valid names quoted in the error message. */
  function ValidNetworkList(): string {
    Join(SupportedNetworkKeys, ", ")
  }

  function InvalidNetworkMessage(network: string): string {
    MessageListing(network, ValidNetworkList())
  }

  /** The error text for `network`, quoting `list` as the valid names. */
  function MessageListing(network: string, list: string): string {
    "Invalid network value in \"NX_PARACHAIN_NETWORK\": " + network + ". Valid values are " + list
  }

  lemma MessageListingParts(network: string, list: string)
    ensures Includes(MessageListing(network, list), network)
    ensures EndsWith(MessageListing(network, list), list)
  {
    var prefix := "Invalid network value in \"NX_PARACHAIN_NETWORK\": ";
    ConcatParts(prefix, network, ". Valid values are " + list);
    ConcatParts(prefix + network + ". Valid values are ", list, "");
    assert MessageListing(network, list) == prefix + network + (". Valid values are " + list);
    assert MessageListing(network, list) == (prefix + network + ". Valid values are ") + list + "";
  }

  /** The error names the rejected value and ends with the list of valid
      names. */
  lemma InvalidNetworkMessageShape(network: string)
    ensures Includes(InvalidNetworkMessage(network), network)
    ensures EndsWith(InvalidNetworkMessage(network), ValidNetworkList())
  {
    MessageListingParts(network, ValidNetworkList());
  }

  /** The seven names `validateNetwork` accepts are exactly the table keys. */
  lemma SupportedNetworkNames(s: string)
    ensures s in SupportedNetworks <==>
      s in {"litentry-prod", "litentry-dev", "litentry-internal", "litentry-staging",
            "litentry-rococo", "litentry", "litentry-local"}
  {
  }

  /** `validateNetwork(network)`: an unset or empty value selects the
      development network, one of the seven hard-coded names is returned as
      it is, and anything else is an error. */
  function ValidateNetwork(network: Option<string>): (r: Result<Network, string>)
    ensures network == None || network == Some("") ==> r == Success(DefaultNetwork)
    ensures network.Some? && network.value != "" ==>
      (r.Success? <==> network.value in SupportedNetworks)
    ensures network.Some? && network.value != "" && r.Success? ==> r.value == network.value
    ensures r.Failure? ==> network.Some? && Includes(r.error, network.value)
    ensures r.Failure? ==> EndsWith(r.error, ValidNetworkList())
  {
    if network.None? || network.value == "" then Success(DefaultNetwork)
    else
      var s := network.value;
      SupportedNetworkNames(s);
      if && s != "litentry-prod"
         && s != "litentry-dev"
         && s != "litentry-internal"
         && s != "litentry-staging"
         && s != "litentry-rococo"
         && s != "litentry"
         && s != "litentry-local"
      then
        InvalidNetworkMessageShape(s);
        Failure(InvalidNetworkMessage(s))
      else
        Success(s)
  }

  /** The key list quoted in the error is exactly the key set of the table,
      without repetitions. */
  lemma SupportedNetworkKeysMatchTable()
    ensures forall k :: k in SupportedNetworkKeys <==> k in SupportedNetworks
    ensures forall i, j :: 0 <= i < j < |SupportedNetworkKeys| ==> SupportedNetworkKeys[i] != SupportedNetworkKeys[j]
  {
  }

  /** Every accepted name is spelled out in the error message. */
  lemma ErrorMessageListsEveryNetwork(n: Network)
    ensures Includes(ValidNetworkList(), n)
  {
    SupportedNetworkKeysMatchTable();
    var k :| 0 <= k < |SupportedNetworkKeys| && SupportedNetworkKeys[k] == n;
    JoinIncludesParts(SupportedNetworkKeys, ", ", k);
  }

  /** Feeding an accepted result back in accepts it again unchanged. */
  lemma ValidateNetworkIdempotent(network: Option<string>)
    requires ValidateNetwork(network).Success?
    ensures ValidateNetwork(Some(ValidateNetwork(network).value)) == ValidateNetwork(network)
  {
  }

  /** Every network but the main one uses the generic SS58 prefix 42. */
  lemma Ss58Prefixes(n: Network)
    ensures SupportedNetworks[n].ss58prefix == (if n == "litentry" then 31 else 42)
  {
  }

  /** `SUPPORTED_NETWORKS[CURRENT_NETWORK]`, from which the module derives
      `CURRENT_NETWORK_SS58_PREFIX`, `_PROVIDER`, `_NAME` and `_DESC`. The
      lookup itself cannot fail: the only failure is the validation error. */
  function CurrentNetworkConfig(network: Option<string>): (r: Result<NetworkConfig, string>)
    ensures r.Success? <==> ValidateNetwork(network).Success?
    ensures r.Success? ==> r.value in SupportedNetworks.Values
    ensures r.Success? ==> r.value.ss58prefix == 31 || r.value.ss58prefix == 42
    ensures network == None || network == Some("") ==>
      r.Success? && r.value.provider == "wss://tee-dev.litentry.io" && r.value.ss58prefix == 42
  {
    var current :- ValidateNetwork(network);
    Success(SupportedNetworks[current])
  }

  /** The configuration is the validated network's own table entry, so the
      `CURRENT_NETWORK_*` values of a supported name are that name's. */
  lemma CurrentNetworkConfigOwnEntry(n: Network)
    ensures CurrentNetworkConfig(Some(n)) == Success(SupportedNetworks[n])
    ensures n == "litentry" ==> CurrentNetworkConfig(Some(n)).value.ss58prefix == 31
  {
    assert ValidateNetwork(Some(n)) == Success(n);
  }
}

=== FILE: shielding_key.dfy ===
/** `services/shielding-key.utils.ts`: creating the local shielding key,
    encrypting and decrypting with it, and exporting it under a passphrase.
    The platform primitives are parameters (see `WebCrypto`, `UtilCrypto`). */
module ShieldingKeyUtils {
  import opened Wrappers
  import opened Bytes
  import opened Hex
  import opened WebCrypto
  import opened UtilCrypto

  /** `ShieldingKey`: the key handle plus its optional on-chain provenance. */
  datatype ShieldingKey = ShieldingKey(key: CryptoKey, createdByTx: Option<string>, createdAtHeight: Option<int>)

  /** `ShieldingKeyData`: what is serialised and encrypted on export. */
  datatype ShieldingKeyData = ShieldingKeyData(key: string, createdByTx: Option<string>, createdAtHeight: Option<int>)

  /** `JSON.stringify` then `stringToU8a`, and `u8aToString` then
      `JSON.parse`; text that is not a `ShieldingKeyData` record is a parse
      failure. */
  datatype JsonCodec = JsonCodec(
    stringify: ShieldingKeyData -> seq<byte>,
    parse: seq<byte> -> Result<ShieldingKeyData, JsError>)

  /** Assumed: parsing what was serialised gives the same record back, with
      absent fields still absent. */
  ghost predicate JsonRoundTrips(json: JsonCodec) {
    forall data :: json.parse(json.stringify(data)) == Success(data)
  }

  /** `aesKeyGenParams` */
  const ShieldingKeyGenParams: AesKeyGenParams := AesKeyGenParams(AesGcmName, 256)

  /** `aesKeyUsages` */
  const ShieldingKeyUsages: seq<KeyUsage> := [EncryptUsage, DecryptUsage]

  /** The content tag passed to `jsonEncrypt`. */
  const KeyExportContent: seq<string> := ["spki"]

  const NonceLength: nat := 12

  const DecryptFailed: JsError := PlainError("Failed to decrypt data")

  /** The keys `generate` and `decode` produce: extractable AES-GCM keys of a
      valid length with usages encrypt and decrypt. */
  predicate WellFormedKey(key: CryptoKey) {
    && key.algorithm == KeyAlgorithm(AesGcmName, |key.material| * 8)
    && IsAesKeyLength(|key.material| * 8)
    && key.extractable
    && key.usages == ShieldingKeyUsages
  }

  /** `generate()`: a fresh 256-bit AES-GCM key without provenance. The
      random bytes come from the caller. */
  function Generate(random: nat -> byte): (sk: ShieldingKey)
    ensures sk.createdByTx == None && sk.createdAtHeight == None
    ensures sk.key.algorithm == KeyAlgorithm("AES-GCM", 256) && |sk.key.material| == 32
    ensures sk.key.extractable && sk.key.usages == [EncryptUsage, DecryptUsage]
    ensures WellFormedKey(sk.key)
  {
    var generated := GenerateKey(ShieldingKeyGenParams, true, ShieldingKeyUsages, random);
    assert generated.Success?;
    ShieldingKey(generated.value, None, None)
  }

  /** `generateNonce12()`: twelve random bytes, the 96-bit IV length
      recommended for AES-GCM in section 5.2.1.1 of NIST SP 800-38D. */
  function GenerateNonce12(random: nat -> byte): (nonce: seq<byte>)
    ensures |nonce| == 12
  {
    GetRandomValues(NonceLength, random)
  }

  /** `encrypt({cleartext, nonce}, shieldingKey)`: the nonce is the IV and
      nothing is caught, so a platform error reaches the caller as is. */
  function Encrypt(aes: AesGcm, cleartext: seq<byte>, nonce: seq<byte>, sk: ShieldingKey): (r: Result<seq<byte>, JsError>)
    ensures r.Failure? <==>
      sk.key.algorithm.name != "AES-GCM" || EncryptUsage !in sk.key.usages || |cleartext| > MaxPlaintextLength
    ensures r.Failure? ==> r.error.DomException?
    ensures sk.key.algorithm.name != "AES-GCM" || EncryptUsage !in sk.key.usages ==>
      r == Failure(DomException(InvalidAccessError))
    ensures sk.key.algorithm.name == "AES-GCM" && EncryptUsage in sk.key.usages && |cleartext| > MaxPlaintextLength ==>
      r == Failure(DomException(OperationError))
    ensures r.Success? ==> r.value == aes.seal(sk.key.material, nonce, cleartext)
  {
    SubtleEncrypt(aes, AesGcmParams(ShieldingKeyGenParams.name, nonce), sk.key, cleartext)
  }

  /** `decrypt({ciphertext, nonce}, shieldingKey)`: every platform failure
      becomes the one error `Failed to decrypt data`; no partial cleartext is
      ever returned. */
  function Decrypt(aes: AesGcm, ciphertext: seq<byte>, nonce: seq<byte>, sk: ShieldingKey): (r: Result<seq<byte>, JsError>)
    ensures r.Failure? ==> r.error == PlainError("Failed to decrypt data")
    ensures r.Success? <==>
      && sk.key.algorithm.name == "AES-GCM" && DecryptUsage in sk.key.usages
      && |ciphertext| >= TagLength && aes.open(sk.key.material, nonce, ciphertext).Some?
    ensures r.Success? ==> Some(r.value) == aes.open(sk.key.material, nonce, ciphertext)
  {
    match SubtleDecrypt(aes, AesGcmParams(ShieldingKeyGenParams.name, nonce), sk.key, ciphertext)
    case Success(decrypted) => Success(decrypted)
    case Failure(_) => Failure(DecryptFailed)
  }

  /** Under the AES-GCM contract, decrypting with the key and nonce used to
      encrypt gives the cleartext back, and the ciphertext is one tag
      longer. */
  lemma EncryptDecryptRoundTrip(aes: AesGcm, cleartext: seq<byte>, nonce: seq<byte>, sk: ShieldingKey)
    requires AesGcmCorrect(aes) && WellFormedKey(sk.key) && |cleartext| <= MaxPlaintextLength
    ensures Encrypt(aes, cleartext, nonce, sk).Success?
    ensures |Encrypt(aes, cleartext, nonce, sk).value| == |cleartext| + TagLength
    ensures Decrypt(aes, Encrypt(aes, cleartext, nonce, sk).value, nonce, sk) == Success(cleartext)
  {
    var c := aes.seal(sk.key.material, nonce, cleartext);
    assert aes.open(sk.key.material, nonce, c) == Some(cleartext);
  }

  /** Under the integrity assumption, whatever decrypts is exactly what
      encrypting its cleartext under the same key and nonce produces. */
  lemma DecryptOnlyGenuine(aes: AesGcm, ciphertext: seq<byte>, nonce: seq<byte>, sk: ShieldingKey)
    requires AesGcmCorrect(aes) && AesGcmAuthentic(aes) && WellFormedKey(sk.key)
    requires |ciphertext| <= MaxPlaintextLength + TagLength
    requires Decrypt(aes, ciphertext, nonce, sk).Success?
    ensures Encrypt(aes, Decrypt(aes, ciphertext, nonce, sk).value, nonce, sk) == Success(ciphertext)
  {
    var m := Decrypt(aes, ciphertext, nonce, sk).value;
    assert aes.open(sk.key.material, nonce, ciphertext) == Some(m);
    assert ciphertext == aes.seal(sk.key.material, nonce, m);
    assert |aes.seal(sk.key.material, nonce, m)| == |m| + TagLength;
  }

  /** The record `encode` serialises: the raw key as `0x` hex, provenance
      copied unchanged. */
  function PackKeyData(raw: seq<byte>, sk: ShieldingKey): (data: ShieldingKeyData)
    ensures |data.key| >= 2 && data.key[..2] == "0x"
    ensures HexToU8a(data.key) == Success(raw)
    ensures data.createdByTx == sk.createdByTx && data.createdAtHeight == sk.createdAtHeight
  {
    HexRoundTrip(raw);
    ShieldingKeyData(U8aToHex(raw), sk.createdByTx, sk.createdAtHeight)
  }

  /** `encode(passphrase, shieldingKey)`: export the raw key, pack it with its
      provenance, serialise and encrypt under the passphrase. The only
      failure is a non-extractable key; an empty passphrase is not
      rejected. */
  function Encode(envelope: JsonEnvelope, json: JsonCodec, passphrase: string, sk: ShieldingKey)
    : (r: Result<EncryptedJson, JsError>)
    ensures r.Success? <==> sk.key.extractable
    ensures r.Failure? ==> r.error == DomException(InvalidAccessError)
  {
    var raw :- ExportRawKey(sk.key);
    var data := PackKeyData(raw, sk);
    Success(envelope.encrypt(json.stringify(data), KeyExportContent, passphrase))
  }

  /** `decode(encryptedJson, passphrase)`: decrypt, parse, hex-decode and
      re-import the key. Nothing is caught: each step's error is returned as
      the step raised it. */
  function Decode(envelope: JsonEnvelope, json: JsonCodec, encrypted: EncryptedJson, passphrase: string)
    : (r: Result<ShieldingKey, JsError>)
    ensures var plain := envelope.decrypt(encrypted, passphrase);
      r.Success? <==>
        && plain.Success?
        && json.parse(plain.value).Success?
        && HexToU8a(json.parse(plain.value).value.key).Success?
        && IsAesKeyLength(|HexToU8a(json.parse(plain.value).value.key).value| * 8)
    ensures envelope.decrypt(encrypted, passphrase).Failure? ==>
      r == Failure(envelope.decrypt(encrypted, passphrase).error)
    ensures var plain := envelope.decrypt(encrypted, passphrase);
      plain.Success? && json.parse(plain.value).Failure? ==>
        r == Failure(json.parse(plain.value).error)
    ensures var plain := envelope.decrypt(encrypted, passphrase);
      plain.Success? && json.parse(plain.value).Success? ==>
        var decoded := HexToU8a(json.parse(plain.value).value.key);
        && (decoded.Failure? ==> r == Failure(PlainError(decoded.error)))
        && (decoded.Success? ==>
              var imported := ImportRawKey(decoded.value, ShieldingKeyGenParams, true, ShieldingKeyUsages);
              imported.Failure? ==> r == Failure(imported.error))
    ensures r.Success? ==>
      && envelope.decrypt(encrypted, passphrase).Success?
      && var parsed := json.parse(envelope.decrypt(encrypted, passphrase).value);
      && parsed.Success?
      && r.value.createdByTx == parsed.value.createdByTx
      && r.value.createdAtHeight == parsed.value.createdAtHeight
      && HexToU8a(parsed.value.key) == Success(r.value.key.material)
    ensures r.Success? ==> WellFormedKey(r.value.key)
  {
    var bytes :- envelope.decrypt(encrypted, passphrase);
    var data :- json.parse(bytes);
    var keyBytes :- HexToU8a(data.key).MapFailure(message => PlainError(message));
    var key :- ImportRawKey(keyBytes, ShieldingKeyGenParams, true, ShieldingKeyUsages);
    Success(ShieldingKey(key, data.createdByTx, data.createdAtHeight))
  }

  /** The export records the `spki` tag and seals exactly the packed key
      data. */
  lemma EncodeSealsKeyData(envelope: JsonEnvelope, json: JsonCodec, passphrase: string, sk: ShieldingKey)
    requires JsonEnvelopeInverts(envelope) && sk.key.extractable
    ensures Encode(envelope, json, passphrase, sk).value.content == ["spki"]
    ensures envelope.decrypt(Encode(envelope, json, passphrase, sk).value, passphrase)
         == Success(json.stringify(ShieldingKeyData(U8aToHex(sk.key.material), sk.createdByTx, sk.createdAtHeight)))
  {
    var data := PackKeyData(sk.key.material, sk);
    assert Encode(envelope, json, passphrase, sk).value == envelope.encrypt(json.stringify(data), KeyExportContent, passphrase);
  }

  /** Export round trip: decoding with the same passphrase gives back the
      same key material and the same provenance, absent fields included. */
  lemma EncodeDecodeRoundTrip(envelope: JsonEnvelope, json: JsonCodec, passphrase: string, sk: ShieldingKey)
    requires JsonEnvelopeInverts(envelope) && JsonRoundTrips(json) && WellFormedKey(sk.key)
    ensures Encode(envelope, json, passphrase, sk).Success?
    ensures Decode(envelope, json, Encode(envelope, json, passphrase, sk).value, passphrase) == Success(sk)
  {
    var data := PackKeyData(sk.key.material, sk);
    var sealed := envelope.encrypt(json.stringify(data), KeyExportContent, passphrase);
    assert Encode(envelope, json, passphrase, sk) == Success(sealed);
    assert envelope.decrypt(sealed, passphrase) == Success(json.stringify(data));
    assert json.parse(json.stringify(data)) == Success(data);
    var imported := ImportRawKey(sk.key.material, ShieldingKeyGenParams, true, ShieldingKeyUsages);
    assert imported == Success(sk.key);
  }

  /** A freshly generated key survives export and import unchanged. */
  lemma GenerateEncodeDecode(envelope: JsonEnvelope, json: JsonCodec, passphrase: string, random: nat -> byte)
    requires JsonEnvelopeInverts(envelope) && JsonRoundTrips(json)
    ensures var sk := Generate(random);
            Decode(envelope, json, Encode(envelope, json, passphrase, sk).value, passphrase) == Success(sk)
  {
    EncodeDecodeRoundTrip(envelope, json, passphrase, Generate(random));
  }

  /** With a non-empty passphrase, decoding under any other passphrase fails,
      with the envelope's own error. */
  lemma DecodeWrongPassphrase(envelope: JsonEnvelope, json: JsonCodec, passphrase: string, other: string, sk: ShieldingKey)
    requires JsonEnvelopeRejectsWrongPassphrase(envelope)
    requires sk.key.extractable && passphrase != "" && other != passphrase
    ensures var encoded := Encode(envelope, json, passphrase, sk).value;
            && Decode(envelope, json, encoded, other).Failure?
            && Decode(envelope, json, encoded, other).error == envelope.decrypt(encoded, other).error
  {
    var data := PackKeyData(sk.key.material, sk);
    var sealed := envelope.encrypt(json.stringify(data), KeyExportContent, passphrase);
    assert Encode(envelope, json, passphrase, sk) == Success(sealed);
    assert envelope.decrypt(sealed, other).Failure?;
  }
}

=== FILE: util.dfy ===
/** The pure helpers of `services/util.ts`: address shape checks, domain
    masking, elapsed-time and reward labels, and name comparison. */
module Util {
  import opened JsString
  import opened Hex

  // ---------------------------------------------------------------------
  // isValidEvmAddress
  // ---------------------------------------------------------------------

  /** The language of `/^(0x)?[0-9a-f]{40}$/`, applied to the lower-cased
      address: forty hex digits, optionally preceded by `0x`. */
  predicate EvmAddressShape(address: string) {
    var t := ToLower(address);
    || (|t| == 40 && IsLowerHex(t))
    || (|t| == 42 && t[..2] == "0x" && IsLowerHex(t[2..]))
  }

  /** `isValidEvmAddress`: lower-case the input, then match it against the
      pattern with one left-to-right scan. */
  method IsValidEvmAddress(address: string) returns (valid: bool)
    ensures valid <==> EvmAddressShape(address)
  {
    var t := ToLower(address);
    var start := if |t| >= 2 && t[0] == '0' && t[1] == 'x' then 2 else 0;
    if |t| - start != 40 {
      // Without the prefix, an `x` in second position is not a hex digit.
      if |t| == 40 {
        assert !IsLowerDigit(t[1]);
      }
      return false;
    }
    var i := start;
    while i < |t|
      invariant start <= i <= |t|
      invariant forall j :: start <= j < i ==> IsLowerDigit(t[j])
    {
      if !IsLowerDigit(t[i]) {
        if start == 2 {
          assert !IsLowerDigit(t[2..][i - 2]);
        }
        return false;
      }
      i := i + 1;
    }
    if start == 2 {
      assert t[..2] == "0x";
      assert forall j :: 0 <= j < |t[2..]| ==> t[2..][j] == t[j + 2];
    }
    return true;
  }

  /** Accepted addresses are 40 or 42 characters long. */
  lemma EvmAddressLength(address: string)
    requires EvmAddressShape(address)
    ensures |address| == 40 || |address| == 42
  {
  }

  /** Acceptance does not depend on letter case. */
  lemma EvmAddressCaseInsensitive(address: string)
    ensures EvmAddressShape(address) <==> EvmAddressShape(ToLower(address))
  {
    ToLowerIdempotent(address);
  }

  // ---------------------------------------------------------------------
  // tellBitcoinAddressType
  // ---------------------------------------------------------------------

  datatype BitcoinAddressType = BitcoinP2pkh | BitcoinP2sh | BitcoinP2wpkh | BitcoinP2tr

  /** Classifies a Bitcoin address by its prefix; the first matching branch
      wins and everything unrecognised is taken to be taproot. */
  function TellBitcoinAddressType(address: string): (r: BitcoinAddressType)
    ensures r == BitcoinP2pkh <==> |address| >= 1 && address[0] == '1'
    ensures r == BitcoinP2sh <==> |address| >= 1 && address[0] == '3'
    ensures r == BitcoinP2wpkh <==> |address| >= 4 && address[..4] == "bc1q"
  {
    if StartsWith(address, "1") then BitcoinP2pkh
    else if StartsWith(address, "3") then BitcoinP2sh
    else if StartsWith(address, "bc1q") then BitcoinP2wpkh
    else if StartsWith(address, "bc1p") then BitcoinP2tr
    else BitcoinP2tr
  }

  /** Only the first four characters are consulted. */
  lemma BitcoinTypeReadsFourChars(a: string, b: string)
    requires |a| >= 4 && |b| >= 4 && a[..4] == b[..4]
    ensures TellBitcoinAddressType(a) == TellBitcoinAddressType(b)
  {
    assert a[0] == a[..4][0] && b[0] == b[..4][0];
  }

  /** Taproot, unknown and upper-case prefixes all land in the last bucket. */
  lemma BitcoinTypeFallback()
    ensures TellBitcoinAddressType("bc1pxyz") == BitcoinP2tr
    ensures TellBitcoinAddressType("BC1QXYZ") == BitcoinP2tr
    ensures TellBitcoinAddressType("") == BitcoinP2tr
    ensures TellBitcoinAddressType("tb1q") == BitcoinP2tr
  {
    assert "bc1pxyz"[..4] != "bc1q" by { assert "bc1pxyz"[3] == 'p'; }
    assert "BC1QXYZ"[..4] != "bc1q" by { assert "BC1QXYZ"[0] == 'B'; }
    assert "tb1q"[..4] != "bc1q" by { assert "tb1q"[0] == 't'; }
  }

  // ---------------------------------------------------------------------
  // domainShorten
  // ---------------------------------------------------------------------

  const DefaultPrefixLength: int := 3

  /** The number of characters kept visible at each end of the name, when
      `p` characters precede the dot. The source tests `p / 2 <= prefixLength`
      and `p / 2 === Math.floor(p / 2)` on reals; on integers these are
      `p <= 2 * prefixLength` and `p % 2 == 0`, and Dafny's `p / 2` is
      `Math.floor(p / 2)`. */
  function VisibleLength(p: int, prefixLength: int): int {
    if p <= 2 * prefixLength then (if p % 2 == 0 then p / 2 - 1 else p / 2)
    else prefixLength
  }

  /** `domainShorten` once `domain.lastIndexOf('.')` is known to be `p`. */
  function ShortenAt(domain: string, p: int, prefixLength: int): string {
    var suffix := SliceFrom(domain, p);
    if p == 1 then "*" + suffix
    else if p == 2 then Slice(domain, 0, 1) + "*" + suffix
    else
      var keep := VisibleLength(p, prefixLength);
      var name := Slice(domain, 0, p);
      Slice(name, 0, keep) + "*" + SliceFrom(name, -keep) + suffix
  }

  /** `domainShorten(domain, prefixLength)`: masks the middle of the name in
      front of the last `.`. JavaScript `slice` semantics are kept, including
      negative indices, so the function is total. */
  function DomainShorten(domain: string, prefixLength: int): (r: string)
    ensures LastIndexOf(domain, '.') >= 1 ==>
      '*' in r && EndsWith(r, domain[LastIndexOf(domain, '.')..])
  {
    var p := LastIndexOf(domain, '.');
    if p >= 1 then
      ShortenAtKeepsSuffix(domain, p, prefixLength);
      ShortenAt(domain, p, prefixLength)
    else
      ShortenAt(domain, p, prefixLength)
  }

  function Min(a: int, b: int): int {
    if a <= b then a else b
  }

  lemma ShortenAtKeepsSuffix(domain: string, p: int, prefixLength: int)
    requires 1 <= p <= |domain|
    ensures '*' in ShortenAt(domain, p, prefixLength)
    ensures EndsWith(ShortenAt(domain, p, prefixLength), domain[p..])
  {
    var r := ShortenAt(domain, p, prefixLength);
    var suffix := domain[p..];
    assert SliceFrom(domain, p) == suffix;
    var head, tail;
    if p == 1 {
      head, tail := "", "";
    } else if p == 2 {
      head, tail := domain[0..1], "";
    } else {
      var keep := VisibleLength(p, prefixLength);
      var name := Slice(domain, 0, p);
      head, tail := Slice(name, 0, keep), SliceFrom(name, -keep);
    }
    assert r == (head + "*" + tail) + suffix;
    assert r[|head|] == '*';
  }

  /** The two short cases: one visible character or none before the dot. */
  lemma DomainShortenShortNames(domain: string, prefixLength: int)
    ensures LastIndexOf(domain, '.') == 1 ==>
      DomainShorten(domain, prefixLength) == "*" + domain[1..]
    ensures LastIndexOf(domain, '.') == 2 ==>
      DomainShorten(domain, prefixLength) == [domain[0]] + "*" + domain[2..]
  {
  }

  /** With at least three characters before the last dot and a positive
      `prefixLength`, the first and last `L` characters of the name stay
      visible, where `L` is the largest count not above `prefixLength` that
      still masks at least one character. */
  lemma DomainShortenMasksMiddle(domain: string, prefixLength: int)
    requires LastIndexOf(domain, '.') >= 3 && prefixLength >= 1
    ensures var p := LastIndexOf(domain, '.');
            var L := Min(prefixLength, (p - 1) / 2);
            && 1 <= L && L <= prefixLength && 2 * L < p
            && DomainShorten(domain, prefixLength) == domain[..L] + "*" + domain[p - L..p] + domain[p..]
  {
    var p := LastIndexOf(domain, '.');
    var L := Min(prefixLength, (p - 1) / 2);
    assert VisibleLength(p, prefixLength) == L;
    var name := Slice(domain, 0, p);
    assert name == domain[..p];
    assert Slice(name, 0, L) == domain[..L];
    assert SliceFrom(name, -L) == name[p - L..] == domain[p - L..p];
  }

  /** The worked example from the source comment. */
  lemma DomainShortenExample()
    ensures DomainShorten("abcd.bnb", DefaultPrefixLength) == "a*d.bnb"
  {
    var d := "abcd.bnb";
    assert d[4] == '.' && '.' !in d[5..];
    assert LastIndexOf(d, '.') == 4;
    DomainShortenMasksMiddle(d, DefaultPrefixLength);
    assert d[..1] == "a";
    assert d[3..4] == "d";
    assert d[4..] == ".bnb";
  }

  /** Without any dot, `lastIndexOf` is -1 and the negative slices repeat
      characters instead of masking them. */
  lemma DomainShortenWithoutDot()
    ensures DomainShorten("abcdef", DefaultPrefixLength) == "abcd*bcdef"
  {
    var d := "abcdef";
    assert '.' !in d;
    assert LastIndexOf(d, '.') == -1;
    assert VisibleLength(-1, DefaultPrefixLength) == -1;
    assert SliceFrom(d, -1) == "f";
    assert Slice(d, 0, -1) == "abcde";
    assert Slice("abcde", 0, -1) == "abcd";
    assert SliceFrom("abcde", 1) == "bcde";
  }

  // ---------------------------------------------------------------------
  // calPassedTimeLabel
  // ---------------------------------------------------------------------

  datatype TimeLabel = JustNow | Seconds(count: int) | MinutesAgo(minutes: int) | AWhileAgo

  /** `calPassedTimeLabel(second)`: four disjoint buckets. */
  function CalPassedTimeLabel(second: int): (l: TimeLabel)
    ensures l == JustNow <==> second <= 10
    ensures l.Seconds? <==> 10 < second <= 60
    ensures l.MinutesAgo? <==> 60 < second <= 600
    ensures l == AWhileAgo <==> 600 < second
    ensures l.Seconds? ==> l.count == second
    ensures l.MinutesAgo? ==> 1 <= l.minutes <= 10 && l.minutes * 60 <= second < (l.minutes + 1) * 60
  {
    if second <= 10 then JustNow
    else if second <= 60 then Seconds(second)
    else if second <= 600 then MinutesAgo(second / 60)
    else AWhileAgo
  }

  /** Decimal digits of a natural number, as JavaScript prints it. */
  function DecimalString(n: nat): (s: string)
    ensures |s| >= 1
    ensures forall i :: 0 <= i < |s| ==> '0' <= s[i] <= '9'
    ensures |s| == 1 || s[0] != '0'
  {
    if n < 10 then [('0' as int + n) as char]
    else DecimalString(n / 10) + [('0' as int + n % 10) as char]
  }

  /** The number a string of decimal digits denotes. */
  function DecimalValue(s: string): int
    decreases |s|
  {
    if |s| == 0 then 0
    else DecimalValue(s[..|s| - 1]) * 10 + (s[|s| - 1] as int - '0' as int)
  }

  /** Reading back what `DecimalString` wrote gives the number. */
  lemma {:induction false} DecimalRoundTrip(n: nat)
    ensures DecimalValue(DecimalString(n)) == n
    decreases n
  {
    var s := DecimalString(n);
    if n < 10 {
      assert s[..0] == "";
    } else {
      DecimalRoundTrip(n / 10);
      assert s[..|s| - 1] == DecimalString(n / 10);
    }
  }

  /** The text the source returns for each bucket. A count reads back from
      the digits in front of the unit. */
  function TimeLabelText(l: TimeLabel): (text: string)
    ensures l.Seconds? && l.count >= 0 ==>
      && EndsWith(text, " seconds")
      && (forall i :: 0 <= i < |text| - 8 ==> '0' <= text[i] <= '9')
      && (|text| == 9 || text[0] != '0')
      && DecimalValue(text[..|text| - 8]) == l.count
    ensures l.MinutesAgo? && l.minutes >= 0 ==>
      && EndsWith(text, " minutes ago")
      && (forall i :: 0 <= i < |text| - 12 ==> '0' <= text[i] <= '9')
      && (|text| == 13 || text[0] != '0')
      && DecimalValue(text[..|text| - 12]) == l.minutes
  {
    match l
    case JustNow => "just now"
    case Seconds(n) =>
      if n >= 0 then
        DecimalRoundTrip(n);
        ConcatParts(DecimalString(n), "", " seconds");
        DecimalString(n) + " seconds"
      else "-" + DecimalString(-n) + " seconds"
    case MinutesAgo(m) =>
      if m >= 0 then
        DecimalRoundTrip(m);
        ConcatParts(DecimalString(m), "", " minutes ago");
        DecimalString(m) + " minutes ago"
      else "-" + DecimalString(-m) + " minutes ago"
    case AWhileAgo => "a while ago"
  }

  /** The label text of an elapsed time: the fixed phrases at both ends, and
      in between the count of seconds or of whole minutes, readable from
      the text. */
  lemma PassedTimeLabelText(second: int)
    ensures var text := TimeLabelText(CalPassedTimeLabel(second));
      && (second <= 10 ==> text == "just now")
      && (10 < second <= 60 ==>
            && EndsWith(text, " seconds")
            && (forall i :: 0 <= i < |text| - 8 ==> '0' <= text[i] <= '9')
            && (|text| == 9 || text[0] != '0')
            && DecimalValue(text[..|text| - 8]) == second)
      && (60 < second <= 600 ==>
            && EndsWith(text, " minutes ago")
            && (forall i :: 0 <= i < |text| - 12 ==> '0' <= text[i] <= '9')
            && (|text| == 13 || text[0] != '0')
            && DecimalValue(text[..|text| - 12]) == second / 60)
      && (600 < second ==> text == "a while ago")
  {
  }

  function BucketIndex(l: TimeLabel): nat {
    match l
    case JustNow => 0
    case Seconds(_) => 1
    case MinutesAgo(_) => 2
    case AWhileAgo => 3
  }

  /** Later instants never fall into an earlier bucket, and within the
      minutes bucket the count never decreases. */
  lemma PassedTimeLabelMonotonic(s1: int, s2: int)
    requires s1 <= s2
    ensures BucketIndex(CalPassedTimeLabel(s1)) <= BucketIndex(CalPassedTimeLabel(s2))
    ensures CalPassedTimeLabel(s1).MinutesAgo? && CalPassedTimeLabel(s2).MinutesAgo? ==>
      CalPassedTimeLabel(s1).minutes <= CalPassedTimeLabel(s2).minutes
  {
  }

  // ---------------------------------------------------------------------
  // calRewardWithRank
  // ---------------------------------------------------------------------

  /** `calRewardWithRank(rank)`: the reward text for a leaderboard rank. */
  function CalRewardWithRank(rank: int): (r: string)
    ensures r in {"22.4", "10", "5", "-"}
    ensures r == "22.4" <==> rank <= 10
    ensures r == "10" <==> 10 < rank <= 50
    ensures r == "5" <==> 50 < rank <= 130
    ensures r == "-" <==> rank > 130
  {
    if rank <= 10 then "22.4"
    else if rank <= 50 then "10"
    else if rank <= 130 then "5"
    else "-"
  }

  /** The reward a label stands for, in tenths; `-` is no reward. */
  function RewardTenths(reward: string): int {
    if reward == "22.4" then 224
    else if reward == "10" then 100
    else if reward == "5" then 50
    else 0
  }

  /** A worse rank never earns a larger reward. */
  lemma RewardNonIncreasing(rank1: int, rank2: int)
    requires rank1 <= rank2
    ensures RewardTenths(CalRewardWithRank(rank1)) >= RewardTenths(CalRewardWithRank(rank2))
  {
  }

  // ---------------------------------------------------------------------
  // isSameName
  // ---------------------------------------------------------------------

  /** The form both names are reduced to: spaces removed, then lower-cased. */
  function NormalizeName(name: string): string {
    ToLower(RemoveAll(name, ' '))
  }

  /** `isSameName(name1, name2)`: with the spaces removed, the names have
      the same length and agree character by character up to ASCII case. */
  function IsSameName(name1: string, name2: string): (same: bool)
    ensures var a, b := RemoveAll(name1, ' '), RemoveAll(name2, ' ');
      same <==> |a| == |b| && forall i :: 0 <= i < |a| ==> LowerChar(a[i]) == LowerChar(b[i])
  {
    var a, b := RemoveAll(name1, ' '), RemoveAll(name2, ' ');
    assert |ToLower(a)| == |a| && |ToLower(b)| == |b|;
    NormalizeName(name1) == NormalizeName(name2)
  }

  /** Name comparison is an equivalence relation. */
  lemma IsSameNameEquivalence(a: string, b: string, c: string)
    ensures IsSameName(a, a)
    ensures IsSameName(a, b) ==> IsSameName(b, a)
    ensures IsSameName(a, b) && IsSameName(b, c) ==> IsSameName(a, c)
  {
  }

  lemma RemoveSpaceInserted(x: string, y: string)
    ensures RemoveAll(x + " " + y, ' ') == RemoveAll(x + y, ' ')
  {
    RemoveAllConcat(x + " ", y, ' ');
    RemoveAllConcat(x, " ", ' ');
    RemoveAllConcat(x, y, ' ');
    assert RemoveAll(" ", ' ') == "";
  }

  /** Inserting a space anywhere never changes the verdict. */
  lemma IsSameNameIgnoresSpace(a: string, i: int, b: string)
    requires 0 <= i <= |a|
    ensures IsSameName(a[..i] + " " + a[i..], b) == IsSameName(a, b)
  {
    RemoveSpaceInserted(a[..i], a[i..]);
    assert a[..i] + a[i..] == a;
    assert NormalizeName(a[..i] + " " + a[i..]) == NormalizeName(a);
  }

  /** Lower-casing never creates or removes a space, so the two steps
      commute. */
  lemma {:induction false} LowerRemoveSpacesCommute(s: string)
    ensures RemoveAll(ToLower(s), ' ') == ToLower(RemoveAll(s, ' '))
    decreases |s|
  {
    if |s| > 0 {
      assert ToLower(s)[1..] == ToLower(s[1..]);
      assert ToLower(s)[0] == LowerChar(s[0]);
      LowerRemoveSpacesCommute(s[1..]);
      if s[0] != ' ' {
        assert ToLower([s[0]] + RemoveAll(s[1..], ' ')) == [LowerChar(s[0])] + ToLower(RemoveAll(s[1..], ' '));
      }
    }
  }

  /** Letter case never matters. */
  lemma IsSameNameIgnoresCase(a: string)
    ensures IsSameName(a, ToLower(a))
  {
    LowerRemoveSpacesCommute(a);
    ToLowerIdempotent(RemoveAll(a, ' '));
  }

  /** Only U+0020 is stripped: a tab still separates. */
  lemma IsSameNameKeepsTabs()
    ensures !IsSameName("a\tb", "ab")
    ensures IsSameName("A b", "ab")
  {
    assert NormalizeName("a\tb")[1] == '\t';
    assert RemoveAll("A b", ' ') == "Ab";
  }

  // ---------------------------------------------------------------------
  // formatAddress
  // ---------------------------------------------------------------------

  /** `formatAddress(s)`: Substrate addresses pass through, anything else is
      given a `0x` prefix unless it already has one. `isValidSubstrateAddress`
      is a wrapper over SS58 decoding and is passed in as a predicate. */
  function FormatAddress(s: string, isValidSubstrateAddress: string -> bool): (r: string)
    ensures r == s || r == "0x" + s
    ensures StartsWith(s, "0x") ==> r == s
    ensures isValidSubstrateAddress(s) ==> r == s
    ensures !isValidSubstrateAddress(s) ==> StartsWith(r, "0x")
  {
    if isValidSubstrateAddress(s) then s
    else if StartsWith(s, "0x") then s
    else "0x" + s
  }

  /** Formatting an already formatted address changes nothing. */
  lemma FormatAddressIdempotent(s: string, isValidSubstrateAddress: string -> bool)
    ensures FormatAddress(FormatAddress(s, isValidSubstrateAddress), isValidSubstrateAddress)
         == FormatAddress(s, isValidSubstrateAddress)
  {
  }
}

=== FILE: util_crypto.dfy ===
/** The passphrase envelope of `@polkadot/util-crypto`: `jsonEncrypt` and
    `jsonDecrypt`. Its key derivation and cipher are supplied by the caller;
    the guarantees the model relies on are stated as predicates. */
module UtilCrypto {
  import opened Wrappers
  import opened Bytes
  import opened WebCrypto

  /** `EncryptedJson`: the encoded payload plus its self-description. */
  datatype EncryptedJson = EncryptedJson(encoded: string, content: seq<string>, encodingType: seq<string>, version: string)

  /** `jsonEncrypt(data, contentType, passphrase)` and
      `jsonDecrypt(json, passphrase)`. */
  datatype JsonEnvelope = JsonEnvelope(
    encrypt: (seq<byte>, seq<string>, string) -> EncryptedJson,
    decrypt: (EncryptedJson, string) -> Result<seq<byte>, JsError>)

  /** Assumed: decrypting with the passphrase used to encrypt returns the
      data, and the content tags are recorded as given. */
  ghost predicate JsonEnvelopeInverts(envelope: JsonEnvelope) {
    forall data, content, passphrase ::
      && envelope.decrypt(envelope.encrypt(data, content, passphrase), passphrase) == Success(data)
      && envelope.encrypt(data, content, passphrase).content == content
  }

  /** Assumed: with a non-empty passphrase, any other passphrase is
      rejected. */
  ghost predicate JsonEnvelopeRejectsWrongPassphrase(envelope: JsonEnvelope) {
    forall data, content, passphrase, other ::
      passphrase != "" && other != passphrase ==>
        envelope.decrypt(envelope.encrypt(data, content, passphrase), other).Failure?
  }
}

=== FILE: web_crypto.dfy ===
/** The slice of the Web Cryptography API (`crypto.subtle`,
    `crypto.getRandomValues`) the shielding key relies on, for AES-GCM keys.
    The checks each method performs before the cipher runs follow the W3C
    Web Cryptography API; the AES-GCM transform itself and the random source
    are supplied by the caller, and the AES-GCM guarantees the rest of the
    model relies on are stated as predicates over them. */
module WebCrypto {
  import opened Wrappers
  import opened Bytes

  datatype DomExceptionName = OperationError | InvalidAccessError | DataError | SyntaxError | NotSupportedError

  /** What a JavaScript call can throw: a `DOMException` from the platform or
      a plain `Error` with a message. */
  datatype JsError = DomException(name: DomExceptionName) | PlainError(message: string)

  datatype KeyUsage =
    | EncryptUsage | DecryptUsage | SignUsage | VerifyUsage
    | DeriveKeyUsage | DeriveBitsUsage | WrapKeyUsage | UnwrapKeyUsage

  /** `AesKeyGenParams` */
  datatype AesKeyGenParams = AesKeyGenParams(name: string, length: int)

  /** `AesGcmParams` without additional data and with the default tag. */
  datatype AesGcmParams = AesGcmParams(name: string, iv: seq<byte>)

  datatype KeyAlgorithm = KeyAlgorithm(name: string, length: int)

  /** A secret `CryptoKey`, including the key material the platform hides. */
  datatype CryptoKey = CryptoKey(algorithm: KeyAlgorithm, extractable: bool, usages: seq<KeyUsage>, material: seq<byte>)

  const AesGcmName: string := "AES-GCM"

  /** Authentication tag length in bytes (128 bits, the default). */
  const TagLength: nat := 16

  /** The largest plaintext AES-GCM accepts, in bytes: 2^39 - 256. */
  const MaxPlaintextLength: nat := 0x80_0000_0000 - 256

  /** The AES-GCM transform: `seal(key, iv, plaintext)` returns ciphertext
      with the tag appended, `open(key, iv, ciphertext)` checks the tag. */
  datatype AesGcm = AesGcm(
    seal: (seq<byte>, seq<byte>, seq<byte>) -> seq<byte>,
    open: (seq<byte>, seq<byte>, seq<byte>) -> Option<seq<byte>>)

  /** Assumed: opening what was sealed under the same key and IV gives the
      plaintext back, and sealing adds exactly one tag. */
  ghost predicate AesGcmCorrect(aes: AesGcm) {
    forall key, iv, m :: aes.open(key, iv, aes.seal(key, iv, m)) == Some(m) && |aes.seal(key, iv, m)| == |m| + TagLength
  }

  /** Assumed: a ciphertext opens only when it is the seal of the cleartext
      it opens to, under the same key and IV. This does not by itself rule
      out another IV or ciphertext sealing to the same bytes. */
  ghost predicate AesGcmAuthentic(aes: AesGcm) {
    forall key, iv, c :: aes.open(key, iv, c).Some? ==> c == aes.seal(key, iv, aes.open(key, iv, c).value)
  }

  predicate IsAesUsage(u: KeyUsage) {
    u == EncryptUsage || u == DecryptUsage || u == WrapKeyUsage || u == UnwrapKeyUsage
  }

  predicate AllAesUsages(usages: seq<KeyUsage>) {
    forall i :: 0 <= i < |usages| ==> IsAesUsage(usages[i])
  }

  predicate IsAesKeyLength(bits: int) {
    bits == 128 || bits == 192 || bits == 256
  }

  /** `crypto.getRandomValues(new Uint8Array(length))`, the random source
      being an infinite byte stream. */
  function GetRandomValues(length: nat, random: nat -> byte): (r: seq<byte>)
    ensures |r| == length
  {
    seq(length, i requires 0 <= i < length => random(i))
  }

  /** `crypto.subtle.generateKey(params, extractable, usages)` for AES-GCM. */
  function GenerateKey(params: AesKeyGenParams, extractable: bool, usages: seq<KeyUsage>, random: nat -> byte)
    : (r: Result<CryptoKey, JsError>)
    ensures r.Success? <==> params.name == AesGcmName && AllAesUsages(usages) && IsAesKeyLength(params.length) && |usages| > 0
    ensures r.Success? ==>
      && r.value.algorithm == KeyAlgorithm(AesGcmName, params.length)
      && r.value.extractable == extractable && r.value.usages == usages
      && |r.value.material| * 8 == params.length
  {
    if params.name != AesGcmName then Failure(DomException(NotSupportedError))
    else if !AllAesUsages(usages) then Failure(DomException(SyntaxError))
    else if !IsAesKeyLength(params.length) then Failure(DomException(OperationError))
    else if |usages| == 0 then Failure(DomException(SyntaxError))
    else Success(CryptoKey(KeyAlgorithm(AesGcmName, params.length), extractable, usages, GetRandomValues(params.length / 8, random)))
  }

  /** `crypto.subtle.importKey('raw', keyData, params, extractable, usages)`
      for AES-GCM; the key length comes from the data, not from `params`. */
  function ImportRawKey(keyData: seq<byte>, params: AesKeyGenParams, extractable: bool, usages: seq<KeyUsage>)
    : (r: Result<CryptoKey, JsError>)
    ensures r.Success? <==> params.name == AesGcmName && AllAesUsages(usages) && IsAesKeyLength(|keyData| * 8) && |usages| > 0
    ensures r.Success? ==> r.value == CryptoKey(KeyAlgorithm(AesGcmName, |keyData| * 8), extractable, usages, keyData)
  {
    if params.name != AesGcmName then Failure(DomException(NotSupportedError))
    else if !AllAesUsages(usages) then Failure(DomException(SyntaxError))
    else if !IsAesKeyLength(|keyData| * 8) then Failure(DomException(DataError))
    else if |usages| == 0 then Failure(DomException(SyntaxError))
    else Success(CryptoKey(KeyAlgorithm(AesGcmName, |keyData| * 8), extractable, usages, keyData))
  }

  /** `crypto.subtle.exportKey('raw', key)` */
  function ExportRawKey(key: CryptoKey): (r: Result<seq<byte>, JsError>)
    ensures r.Success? <==> key.extractable
    ensures r.Success? ==> r.value == key.material
    ensures r.Failure? ==> r.error == DomException(InvalidAccessError)
  {
    if !key.extractable then Failure(DomException(InvalidAccessError))
    else Success(key.material)
  }

  /** `crypto.subtle.encrypt(params, key, data)` with AES-GCM. */
  function SubtleEncrypt(aes: AesGcm, params: AesGcmParams, key: CryptoKey, data: seq<byte>): (r: Result<seq<byte>, JsError>)
    ensures r.Success? <==>
      params.name == AesGcmName && key.algorithm.name == AesGcmName && EncryptUsage in key.usages && |data| <= MaxPlaintextLength
    ensures r.Success? ==> r.value == aes.seal(key.material, params.iv, data)
    ensures r.Failure? ==> r.error.DomException?
    ensures params.name != AesGcmName ==> r == Failure(DomException(NotSupportedError))
    ensures params.name == AesGcmName && (key.algorithm.name != AesGcmName || EncryptUsage !in key.usages) ==>
      r == Failure(DomException(InvalidAccessError))
    ensures (params.name == AesGcmName && key.algorithm.name == AesGcmName && EncryptUsage in key.usages
             && |data| > MaxPlaintextLength) ==> r == Failure(DomException(OperationError))
  {
    if params.name != AesGcmName then Failure(DomException(NotSupportedError))
    else if params.name != key.algorithm.name then Failure(DomException(InvalidAccessError))
    else if EncryptUsage !in key.usages then Failure(DomException(InvalidAccessError))
    else if |data| > MaxPlaintextLength then Failure(DomException(OperationError))
    else Success(aes.seal(key.material, params.iv, data))
  }

  /** `crypto.subtle.decrypt(params, key, data)` with AES-GCM. */
  function SubtleDecrypt(aes: AesGcm, params: AesGcmParams, key: CryptoKey, data: seq<byte>): (r: Result<seq<byte>, JsError>)
    ensures r.Success? <==>
      && params.name == AesGcmName && key.algorithm.name == AesGcmName && DecryptUsage in key.usages
      && |data| >= TagLength && aes.open(key.material, params.iv, data).Some?
    ensures r.Success? ==> Some(r.value) == aes.open(key.material, params.iv, data)
    ensures r.Failure? ==> r.error.DomException?
  {
    if params.name != AesGcmName then Failure(DomException(NotSupportedError))
    else if params.name != key.algorithm.name then Failure(DomException(InvalidAccessError))
    else if DecryptUsage !in key.usages then Failure(DomException(InvalidAccessError))
    else if |data| < TagLength then Failure(DomException(OperationError))
    else
      match aes.open(key.material, params.iv, data)
      case Some(plaintext) => Success(plaintext)
      case None => Failure(DomException(OperationError))
  }
}

=== FILE: wrappers.dfy ===
/** Failure-compatible wrappers used throughout the model: an optional value
    (a TypeScript `T | undefined` field) and a result that is either a value
    or the error a JavaScript call would throw. */
module Wrappers {

  datatype Option<+T> = None | Some(value: T)

  datatype Result<+R, +E> = Success(value: R) | Failure(error: E) {

    predicate IsFailure() {
      Failure?
    }

    function PropagateFailure<U>(): Result<U, E>
      requires Failure?
    {
      Failure(error)
    }

    function Extract(): R
      requires Success?
    {
      value
    }

    /** Rewraps the error, keeping a success as it is. */
    function MapFailure<NewE>(rewrap: E -> NewE): Result<R, NewE> {
      match this
      case Success(v) => Success(v)
      case Failure(e) => Failure(rewrap(e))
    }
  }
}
